=== FILE: README.md ===
# TripPing backend core in Dafny

A model of the parts of the TripPing backend that are plain computation. The Firebase, Gemini and Express
plumbing around them is not modelled. The parts are:

- the fence sanitizer `sanitizeJsonString`. It strips one Markdown code fence from a language model's reply
  before the reply is parsed as JSON;
- the yes/no verdict of `validateInput` and the feature splitter `cleanJSON` in the Gemini service;
- the trip services as state transitions on one stored document: the checklist (`addItems`, `deleteItem`),
  the spent total (`incrementExpenses`, `setBudget`), the variable expenses (`addVariableExpenses`),
  event deletion (`deleteEvent`), the defaults of `getAllTrip`, and the activity mapping of `createTrip`;
- the request handlers of the trip controller as validation cascades. Each one ends in a rejection
  (status and message) or a service call (arguments and success status).

Layout, one module per file:

| file | module | contents |
|---|---|---|
| common.dfy | Common | `Option`/`Result`, the JavaScript number (a real or NaN), parsed JSON values, truthiness, and how a plain object reads and writes keys |
| strings.dfy | Strings | JavaScript whitespace (the set shared by `trim` and the regular-expression class `\s`), `trim`, ASCII lower-casing |
| seqs.dfy | Seqs | `filter(e => e !== x)` as `RemoveAll`, and duplicate-freedom |
| json_sanitizer.dfy | JsonSanitizer | `sanitizeJsonString` and its properties |
| gemini_services.dfy | GeminiServices | the verdict of `validateInput` and `cleanJSON` |
| trip_model.dfy | TripModel | the stored trip and itinerary documents and the createTrip inputs |
| trip_services.dfy | TripServices | the trip services |
| trip_controller.dfy | TripController | the trip request handlers |

How the model is set up:

- A service receives the document snapshot it reads as a parameter, with `None` meaning the document does
  not exist. It returns the document it leaves behind, or a `Failure` carrying the message the service
  throws.
- Each field of a stored trip is optional, because the trip document is written from whatever the client sent.
- Timestamps are whole milliseconds. Coordinates are compared only for equality.
- Object keys follow JavaScript plain-object rules where the source relies on them. A read sees the members
  every object inherits, and an assignment to `__proto__` creates no key. `Common.ObjectSemantics` selects
  between these rules and an own-keys-only dictionary.

Behaviours of the code that the model states as they are:

- `setBudget` overwrites `expensesUsed`, the amount spent so far. No service updates `expensesLimit` after
  the trip is created.
- `sanitizeJsonString` is not idempotent. It is a fixed point only on clean text: `` ``` ```x `` sanitizes
  to `` ```x ``, which sanitizes to `x` (`JsonSanitizer.SanitizeNotIdempotent`).
- `createTrip` stores the trip document before it maps the activities. An activity without a location
  then fails the call after the trip is stored, and no itinerary is written (`TripServices.CreateTrip`).
- Variable expenses are a dictionary from name to amount.

## Model

| member | source | states |
|---|---|---|
| Strings.Trim | backend/src/utils/jsonSanitizer.ts:3 | the trimmed text has no whitespace at either end and is one contiguous piece of the input |
| Strings.TrimPadded | backend/src/utils/jsonSanitizer.ts:3 | trimming removes exactly the whitespace around text whose two ends are not whitespace |
| Strings.TrimParts | backend/src/utils/jsonSanitizer.ts:6 | every string is its trim with whitespace on either side |
| JsonSanitizer.StripLeadingFence | backend/src/utils/jsonSanitizer.ts:4 | the leading-fence replacement only removes a prefix, and only when the text starts with a fence |
| JsonSanitizer.StripTrailingFence | backend/src/utils/jsonSanitizer.ts:5 | the trailing-fence replacement removes exactly one closing fence when there is one, and otherwise nothing |
| JsonSanitizer.Sanitize | backend/src/utils/jsonSanitizer.ts:1-7 | the output has no leading or trailing whitespace and is never longer than the input |
| JsonSanitizer.SanitizeIsInfix | backend/src/utils/jsonSanitizer.ts:2-6 | the output is a contiguous substring of the input |
| JsonSanitizer.SanitizeCleanFixedPoint | backend/src/utils/jsonSanitizer.ts:1-7 | trimmed text that neither starts nor ends with a fence comes back unchanged |
| JsonSanitizer.StripLeadingUnfold | backend/src/utils/jsonSanitizer.ts:4 | after a fence, a written `json` tag is consumed, and with no tag only the whitespace after the fence goes with it |
| JsonSanitizer.SanitizeUnwrapsFence | backend/src/utils/jsonSanitizer.ts:2-6 | trimmed content inside a fenced block (optional `json` tag, any surrounding whitespace) comes back exactly; the one exception is an untagged fence glued to content that starts with `json` |
| JsonSanitizer.SanitizeTaggedExample | backend/src/utils/jsonSanitizer.ts:4-6 | `` ```json {"a":1}``` `` gives `{"a":1}` |
| JsonSanitizer.SanitizeUpperCaseTagExample | backend/src/utils/jsonSanitizer.ts:4 | the tag is matched in any letter case: `` ```JSON `` is stripped too |
| JsonSanitizer.SanitizeBareFenceExample | backend/src/utils/jsonSanitizer.ts:4-6 | a bare fence with no tag is stripped the same way |
| JsonSanitizer.SanitizeLeadingFenceOnly | backend/src/utils/jsonSanitizer.ts:4-6 | with no closing fence, only the opening fence and the whitespace behind it go |
| JsonSanitizer.SanitizeLoneLeadingFence | backend/src/utils/jsonSanitizer.ts:4-6 | an untagged opening fence glued to trimmed text leaves exactly that text |
| JsonSanitizer.OneLeadingFencePerCall | backend/src/utils/jsonSanitizer.ts:4 | of two opening fences only the first is removed in one call |
| JsonSanitizer.OneTrailingFencePerCall | backend/src/utils/jsonSanitizer.ts:5 | of two closing fences only the last is removed in one call |
| JsonSanitizer.DoubledFenceNeedsTwoCalls | backend/src/utils/jsonSanitizer.ts:4 | a doubled opening fence takes two calls to peel off |
| JsonSanitizer.SanitizeNotIdempotent | backend/src/utils/jsonSanitizer.ts:1-7 | `` ``` ```x `` gives `` ```x ``, and a second call gives `x` |
| GeminiServices.VerdictIff | backend/src/services/geminiServices.ts:25 | the verdict is yes exactly when the reply is `true` in any letter case with only whitespace around it |
| GeminiServices.VerdictUpperCasePadded | backend/src/services/geminiServices.ts:25 | `" TRUE\n"` reads as yes |
| GeminiServices.VerdictRejectsOtherReplies | backend/src/services/geminiServices.ts:25 | `"true."` and `"yes"` read as no |
| GeminiServices.SplitDay | backend/src/services/geminiServices.ts:75 | destructuring a day throws exactly on null; an object day loses only its `miscellaneous` key and keeps every other attribute unchanged; `miscellaneous` is found only on an object day that has it |
| GeminiServices.PlaceOfObject | backend/src/services/geminiServices.ts:75-76 | the place record of an object day is that object without `miscellaneous` |
| GeminiServices.CleanJsonWith | backend/src/services/geminiServices.ts:70-83 | the split fails exactly when some day is null; the place map has the day keys the output object can store, each mapped to its record without `miscellaneous`; a day is in the miscellaneous map exactly when its `miscellaneous` value is truthy, mapped to that value unchanged |
| GeminiServices.CleanJson | backend/src/services/geminiServices.ts:70-83 | as intended: the place map has exactly the input's day keys; the miscellaneous map's keys are a subset of them; a day appears there iff its `miscellaneous` is truthy (an empty array counts) and keeps that value |
| GeminiServices.CleanJsonAsWritten | backend/src/services/geminiServices.ts:74-80 | as written: a day named `__proto__` is missing from both output maps |
| Common.Assign | backend/src/services/geminiServices.ts:76-78 | `obj[key] = v` adds the key unless it is `__proto__` on a plain object, where it changes nothing; every other entry is kept; otherwise the key reads back `v` |
| Seqs.RemoveAll | backend/src/services/tripServices.ts:257 | the filter leaves no copy of the removed value, and as a multiset the result is the input with that value's count set to zero |
| Seqs.RemoveAllAppend | backend/src/services/tripServices.ts:257 | filtering works piecewise over a concatenation, so the survivors keep their relative order |
| Seqs.RemoveAllAbsent | backend/src/services/tripServices.ts:257 | filtering out an absent value changes nothing |
| Seqs.AppendFresh | backend/src/services/tripServices.ts:238-240 | appending a value not yet present keeps the list free of duplicates |
| TripServices.AddItems | backend/src/services/tripServices.ts:231-247 | a missing trip throws; afterwards the item is listed; a listed item leaves the list unchanged and a new one is appended at the end; no other field changes |
| TripServices.AddItemsIsSetInsert | backend/src/services/tripServices.ts:237-241 | as a set, the checklist gains exactly the item |
| TripServices.AddItemsKeepsNoDuplicates | backend/src/services/tripServices.ts:238-240 | addItems never introduces a duplicate |
| TripServices.AddItemsIdempotent | backend/src/services/tripServices.ts:238-241 | adding the same item twice is adding it once |
| TripServices.DeleteItem | backend/src/services/tripServices.ts:249-265 | a missing trip throws; an unlisted item changes nothing; otherwise every occurrence goes and the other items stay in their order; no other field changes |
| TripServices.DeleteItemKeepsOrder | backend/src/services/tripServices.ts:256-258 | the remaining items keep their relative order |
| TripServices.DeleteUndoesAddItems | backend/src/services/tripServices.ts:237-258 | deleting an item that addItems just appended restores the list |
| TripServices.IncrementExpenses | backend/src/services/tripServices.ts:267-281 | a missing trip throws; the new total is the old total plus the amount, and NaN when the old total is missing or NaN; no other field changes |
| TripServices.IncrementTwice | backend/src/services/tripServices.ts:273-275 | two increments equal one increment by their sum |
| TripServices.IncrementKeepsNaN | backend/src/services/tripServices.ts:273-275 | a missing or NaN total stays NaN whatever is added |
| TripServices.SetBudget | backend/src/services/tripServices.ts:342-352 | `expensesUsed` becomes the amount; `expensesLimit` and every other field keep their values, and a missing trip is created with only that field |
| TripServices.SetBudgetLastWriteWins | backend/src/services/tripServices.ts:346 | of two setBudget calls, the second decides |
| TripServices.IncrementAfterSetBudget | backend/src/services/tripServices.ts:273-275 | an increment after setBudget counts from the amount set |
| TripServices.AddVariableExpenseWith | backend/src/services/tripServices.ts:316-340 | a missing trip fails with "Trip not found"; the dictionary is always written back; only the total and the dictionary can change |
| TripServices.AddVariableExpense | backend/src/services/tripServices.ts:322-334 | as intended: when the name is missing or its amount is 0 or NaN, the entry is set to the value and the total grows by the value; otherwise both stay as they were |
| TripServices.AddVariableExpenseIdempotent | backend/src/services/tripServices.ts:329-332 | after a non-zero expense is recorded under a name, another call with that name changes nothing, whatever its amount |
| TripServices.AddVariableExpenseAsWritten | backend/src/services/tripServices.ts:327-332 | as written: a name that every object inherits (such as `constructor`) is neither stored nor charged; every other name behaves as intended |
| TripServices.InheritedNameExpenseLost | backend/src/services/tripServices.ts:329-330 | a first expense named `constructor` is dropped as written, and recorded as intended |
| TripServices.SameEventIsEquality | backend/src/services/tripServices.ts:291-304 | the field-by-field event test (details, title, start, end, and both locations absent or with equal coordinates) is exactly equality of activities |
| TripServices.KeepOthersIsRemoveAll | backend/src/services/tripServices.ts:290-305 | the filter deleteEvent applies is removal of every copy of the target |
| TripServices.DeleteEvent | backend/src/services/tripServices.ts:283-313 | a missing day or activity list throws; otherwise every activity equal to the target goes, the others keep their order and counts, and the date stays |
| TripServices.DeleteEventIdempotent | backend/src/services/tripServices.ts:290-307 | deleting an event twice is deleting it once |
| TripServices.ViewOf | backend/src/services/tripServices.ts:183-192 | a missing `setExpenses` or `variableExpenses` becomes an empty map and missing `items` an empty list; all other fields are copied |
| TripServices.ViewRoundTrip | backend/src/services/tripServices.ts:183-192 | the view loses nothing from a document whose defaulted fields are present, and a view is recovered from the document it describes |
| TripServices.GetAllTrip | backend/src/services/tripServices.ts:176-200 | one view per stored trip, in query order, with the document id |
| TripServices.MapActivities | backend/src/services/tripServices.ts:93-99 | the mapping succeeds exactly when every activity has a location, and then gives back the submitted activities unchanged; otherwise it throws reading `latitude` |
| TripServices.MapItineraries | backend/src/services/tripServices.ts:90-107 | the batch is built exactly when every day has an activity list whose activities all have locations; then the i-th document holds the i-th day's date and its activities as submitted |
| TripServices.CreateTrip | backend/src/services/tripServices.ts:82-118 | the trip document is written in every case; the call succeeds exactly when every day can be stored, and then returns the new id and, for each submitted day in order, the document holding its date and activities; on failure no itinerary is written |
| TripController.CreateTrip | backend/src/controllers/tripController.ts:6-28 | missing `userId`, then empty or missing `tripData`, then missing or empty `itineraries` give 400 with their own messages, in that order; otherwise the service is called and the answer is 201 |
| TripController.GetAllTrip | backend/src/controllers/tripController.ts:108-132 | a missing or blank (after trim) `userId` gives 400; an unknown user gives 404; otherwise 200 |
| TripController.AddItem | backend/src/controllers/tripController.ts:211-236 | missing `userId`, then missing `tripId`, then empty `item` give 400 with their own messages; otherwise addItems is called and the answer is 200; never 404 |
| TripController.DeleteItem | backend/src/controllers/tripController.ts:239-256 | any of `userId`, `tripId`, `item` falsy gives 400; otherwise deleteItem is called and the answer is 204; never 404 |
| TripController.DeleteEvent | backend/src/controllers/tripController.ts:258-297 | missing `userId`, `tripId`, `itineraryId` give 400 in that order, then a missing activity or one lacking start, end, title or details gives 400; otherwise deleteEvent gets the user, trip and itinerary ids and the activity as sent, and the answer is 204 |
| TripController.AddVariableExpenses | backend/src/controllers/tripController.ts:299-317 | a missing item, a non-string name or a blank name gives 400 first; then a missing, NaN or non-positive value gives 400; only then is the service called, with the ids unchecked, and the answer is 200 |
| TripController.SetBudget | backend/src/controllers/tripController.ts:320-342 | a missing `userId`, `tripId` or `amount` gives 400, then NaN gives 400, then a non-positive amount gives 400; only a positive amount reaches the service, and the answer is 200 |
| TripController.BlankUserIdTreatedDifferently | backend/src/controllers/tripController.ts:112 | a whitespace-only user id passes addItem's check but is rejected by getAllTrip, the only handler that trims |
| TripController.AcceptedExpenseRepeatsHarmlessly | backend/src/controllers/tripController.ts:307-311 | every value the handler accepts is truthy, so repeating an accepted request leaves the trip as the first one left it |
| TripController.AcceptedBudgetIsPositive | backend/src/controllers/tripController.ts:332-336 | setBudget only ever stores a positive amount |
| TripController.GetAllTripNotFoundIff | backend/src/controllers/tripController.ts:111-130 | getAllTrip answers 404 exactly when the user id is not blank and the user is not found; it answers nothing but 400, 404, 200 or 500 |
| TripController.CreateTripNeverNotFound | backend/src/controllers/tripController.ts:8-27 | createTrip answers 400, 201 or 500, never 404 |
| TripController.ItemHandlersNeverNotFound | backend/src/controllers/tripController.ts:213-255 | addItem answers 400, 200 or 500 and deleteItem 400, 204 or 500; neither answers 404 |
| TripController.DeleteEventNeverNotFound | backend/src/controllers/tripController.ts:262-296 | deleteEvent answers 400, 204 or 500, never 404 |
| TripController.ExpenseHandlersNeverNotFound | backend/src/controllers/tripController.ts:301-341 | addVariableExpenses and setBudget answer 400, 200 or 500, never 404 |

## Left out

- Firestore reads, writes, batching and app initialisation: a service works on a document snapshot it is
  given. Races between the separate read and write of one service are concurrency, which is not modelled.
- The calls to the language model and all prompt text in the Gemini service. The rules written only in
  prompt text (query construction, radius by transport, time slots, the planning in `processAI`) are not
  implemented by any code. `extractItienaryFeatures`, `getQuery` and `processAI` are therefore not modelled.
- `getItineraryIds`, `getAllItinerary`, `isUserExist`, `isTripExist` and `isItineraryExist` are queries that
  only read the store.
- The `editActivity` handler and service. The handler's checks sit inside a `forEach` callback and do not stop
  the handler. It then calls a service that does not exist. The `deleteTrip` handler also calls a missing
  service.
- The existence checks in createTrip, addItem, deleteItem and deleteEvent test an un-awaited Promise, which
  is always truthy, so they never answer 404. They are absent from those handlers.
- `new Date(...)` parsing: timestamps are integers. `deleteEvent` compares times with `getTime()`, and the
  model compares the integers.
- GeoPoint validation: the model does not check that latitude and longitude are in range, so an
  out-of-range coordinate is stored rather than thrown.
- Floating-point rounding: numbers are reals or NaN.
- Strings are sequences of characters, not UTF-16 code units. Lower-casing is ASCII-only, which is exact
  for comparing with `true`.
- JavaScript coercion of request values of the wrong type is not modelled. Request fields are typed
  options: a string `value` for an expense, `null` versus a missing field, and an array `userId` from a
  repeated query parameter are all outside the model.
- Express routing, `app.ts`, the user controller and the user service are wiring and authentication.
- TripServices.CreateTrip: the trip document is taken as already converted from the request's `tripData`.
  The handler passes the raw object, and the model checks only that it has at least one key. Each
  submitted day is taken to carry a date, and each activity a start, end, title and details; the success
  condition is stated for such days only. Neither the handler nor the service checks those fields: a
  missing one is copied into the batch as `undefined` or an Invalid Date, and what the store then does
  with it is not modelled.
- TripServices.MapItineraries: each day is taken to carry a date, and each activity a start, end, title and
  details, so "built exactly when" covers only such days; a missing field would be copied as `undefined`
  or an Invalid Date, which is not modelled. The error message is one of the two a failing day can raise.
  Which day fails first is not stated.
- TripController.DeleteEvent: a start or end of 0 counts as missing, because the model's timestamps are
  numbers. A date string is never falsy unless it is empty.

## Findings

| source | as written | input that shows it | evidently intended | confidence | as-written member | corrected member |
|---|---|---|---|---|---|---|
| backend/src/services/tripServices.ts:329-330 | `!variableExpenses[item.name]` reads members every object inherits, so a name like `constructor` or `toString` reads truthy | a trip with no variable expenses and the item `{name: "constructor", value: 5}`: nothing is stored and the total does not grow | record the first expense under any name and add its value to the total | medium, not executed | TripServices.AddVariableExpenseAsWritten | TripServices.AddVariableExpense |
| backend/src/services/geminiServices.ts:76-79 | `placeJson[day] = rest` on a plain object with `day` equal to `__proto__` replaces the prototype instead of adding a key | parsed features `{"__proto__": {"location": ["Kyoto"]}}`: the place map comes out empty | every day of the input appears in the place map | medium, not executed | GeminiServices.CleanJsonAsWritten | GeminiServices.CleanJson |

=== FILE: common.dfy ===
/** Values shared by the whole model: failure-compatible wrappers, the JavaScript
    number, parsed JSON values, and how a plain JavaScript object behaves when it
    is used as a string-keyed dictionary. */
module Common {

  datatype Option<+T> = None | Some(value: T) {

    /** The value, or `default` when absent (JavaScript's `x || default` on an object field) */
    function GetOr(default: T): T
    {
      match this
      case Some(v) => v
      case None => default
    }
  }

  /** The outcome of an operation that may throw; the error carries the message. */
  datatype Result<+T> = Success(value: T) | Failure(error: string) {

    predicate IsFailure() {
      Failure?
    }

    function PropagateFailure<U>(): Result<U>
      requires Failure?
    {
      Failure(error)
    }

    function ToOption(): Option<T>
    {
      match this
      case Success(v) => Some(v)
      case Failure(_) => None
    }

    function Extract(): T
      requires Success?
    {
      value
    }
  }

  /** A JavaScript number: a value or NaN. Floating-point rounding is not modelled. */
  datatype Number = Num(value: real) | NaN

  /** JavaScript `a + b` on numbers, where a missing operand reads as `undefined`,
      and `undefined + x` is NaN. */
  function Plus(a: Option<Number>, b: Number): Number
  {
    match (a, b)
    case (Some(Num(x)), Num(y)) => Num(x + y)
    case _ => NaN
  }

  /** JavaScript truthiness of a number: 0 and NaN are falsy. */
  predicate NumberTruthy(n: Number)
  {
    n.Num? && n.value != 0.0
  }

  /** A value produced by `JSON.parse`. */
  datatype Json =
    | JNull
    | JBool(b: bool)
    | JNum(x: real)
    | JStr(s: string)
    | JArr(items: seq<Json>)
    | JObj(fields: map<string, Json>)

  /** JavaScript truthiness of a parsed value: arrays and objects are truthy even when empty. */
  predicate Truthy(v: Json)
  {
    match v
    case JNull => false
    case JBool(b) => b
    case JNum(x) => x != 0.0
    case JStr(s) => s != ""
    case JArr(_) => true
    case JObj(_) => true
  }

  /** The properties every plain object inherits from Object.prototype; all of
      them are functions or objects, hence truthy when read. */
  const ObjectPrototypeNames: set<string> :=
    {"constructor", "hasOwnProperty", "isPrototypeOf", "propertyIsEnumerable",
     "toLocaleString", "toString", "valueOf", "__proto__",
     "__defineGetter__", "__defineSetter__", "__lookupGetter__", "__lookupSetter__"}

  /** How `obj[key]` reads and writes are interpreted.
      PlainObject: the JavaScript semantics of an object literal `{}` (inherited
      members are visible to reads; assigning to `__proto__` changes the
      prototype instead of creating a key).
      OwnKeys: a dictionary that sees only its own keys (a `Map`, or an
      `Object.hasOwn` check). */
  datatype ObjectSemantics = PlainObject | OwnKeys

  /** Whether `obj[key]` is truthy, given how values are judged. */
  predicate ReadsTruthy<V>(obj: map<string, V>, key: string, truthy: V -> bool, sem: ObjectSemantics)
  {
    if key in obj then truthy(obj[key])
    else sem == PlainObject && key in ObjectPrototypeNames
  }

  /** The keys under which an assignment creates an own property. */
  function Storable(keys: set<string>, sem: ObjectSemantics): (r: set<string>)
    ensures r <= keys
    ensures sem == OwnKeys ==> r == keys
    ensures forall k :: k in keys && k != "__proto__" ==> k in r
  {
    if sem == PlainObject then keys - {"__proto__"} else keys
  }

  /** `obj[key] = v` on an object without an own `__proto__` key. */
  function Assign<V>(obj: map<string, V>, key: string, v: V, sem: ObjectSemantics): (r: map<string, V>)
    ensures r.Keys == obj.Keys + Storable({key}, sem)
    ensures forall k :: k in obj && k != key ==> k in r && r[k] == obj[k]
    ensures key != "__proto__" || sem == OwnKeys ==> key in r && r[key] == v
    ensures key == "__proto__" && sem == PlainObject ==> r == obj
  {
    if key in Storable({key}, sem) then obj[key := v] else obj
  }
}

=== FILE: gemini_services.dfy ===
/** The two pieces of the Gemini service that are plain computation: the yes/no reading of
    validateInput's reply and cleanJSON's split of the extracted features. The calls to the
    language model themselves are not part of this model. */
module GeminiServices {
  import opened Common
  import opened Strings

  // ---------------------------------------------------------------------------------------
  // validateInput

  /** validateInput's verdict: the reply, trimmed and lower-cased, is exactly `true`. */
  predicate Verdict(text: string)
  {
    LowerAscii(Trim(text)) == "true"
  }

  /** The word `true` written in any mix of letter cases. */
  predicate TrueWord(v: string)
  {
    |v| == 4 && (v[0] == 't' || v[0] == 'T') && (v[1] == 'r' || v[1] == 'R')
    && (v[2] == 'u' || v[2] == 'U') && (v[3] == 'e' || v[3] == 'E')
  }

  /** A reply padded with whitespace around a `true` in any letter case. */
  ghost predicate PaddedTrue(text: string)
  {
    exists w1, v, w2 :: AllWhitespace(w1) && AllWhitespace(w2) && TrueWord(v) && text == w1 + v + w2
  }

  lemma LowerTrue(v: string)
    ensures LowerAscii(v) == "true" <==> TrueWord(v)
  {
    var l := LowerAscii(v);
    if |v| == 4 {
      assert l == [l[0], l[1], l[2], l[3]];
    }
  }

  /** The verdict is `true` exactly for a padded `true`: nothing else in the reply is allowed. */
  lemma VerdictIff(text: string)
    ensures Verdict(text) <==> PaddedTrue(text)
  {
    if Verdict(text) {
      var w1, w2 := TrimParts(text);
      LowerTrue(Trim(text));
      assert AllWhitespace(w1) && AllWhitespace(w2) && TrueWord(Trim(text)) && text == w1 + Trim(text) + w2;
    }
    if PaddedTrue(text) {
      var w1, v, w2 :| AllWhitespace(w1) && AllWhitespace(w2) && TrueWord(v) && text == w1 + v + w2;
      TrimPadded(w1, v, w2);
      LowerTrue(v);
    }
  }

  /** The pieces of `" TRUE\n"`. */
  lemma UpperTrueParts(text: string, w1: string, v: string, w2: string)
    requires text == " TRUE\n" && w1 == " " && v == "TRUE" && w2 == "\n"
    ensures AllWhitespace(w1) && AllWhitespace(w2) && TrueWord(v) && text == w1 + v + w2
  {
  }

  /** `" TRUE\n"` reads as yes. */
  lemma VerdictUpperCasePadded(text: string)
    requires text == " TRUE\n"
    ensures Verdict(text)
  {
    UpperTrueParts(text, " ", "TRUE", "\n");
    VerdictIff(text);
  }

  /** `"true."` and `"yes"` read as no. */
  lemma VerdictRejectsOtherReplies(dotted: string, yes: string)
    requires dotted == "true." && yes == "yes"
    ensures !Verdict(dotted) && !Verdict(yes)
  {
    TrimTrimmed(dotted);
    TrimTrimmed(yes);
    LowerTrue(dotted);
    LowerTrue(yes);
  }

  // ---------------------------------------------------------------------------------------
  // cleanJSON

  function Digit(d: nat): char
    requires d < 10
  {
    "0123456789"[d]
  }

  /** The decimal spelling of an index, which is the property key an array index reads as. */
  function IndexKey(n: nat): string
    decreases n
  {
    if n < 10 then [Digit(n)] else IndexKey(n / 10) + [Digit(n % 10)]
  }

  /** The own enumerable properties of an array (or of a string's characters): index to element. */
  function Indexed(items: seq<Json>): map<string, Json>
    decreases |items|
  {
    if items == [] then map[] else Indexed(items[..|items| - 1])[IndexKey(|items| - 1) := items[|items| - 1]]
  }

  /** What `const { miscellaneous, ...rest } = details` binds. */
  datatype DaySplit = DaySplit(rest: map<string, Json>, miscellaneous: Option<Json>)

  /** Destructuring one day's details: null throws; a primitive has no own properties except a
      string's characters; an array spreads into index keys; an object loses exactly its
      `miscellaneous` key. No prototype carries a `miscellaneous` member. */
  function SplitDay(details: Json): (r: Result<DaySplit>)
    ensures r.Failure? <==> details.JNull?
    ensures r.Success? && details.JObj? ==>
      && r.value.rest.Keys == details.fields.Keys - {"miscellaneous"}
      && (forall k :: k in r.value.rest ==> r.value.rest[k] == details.fields[k])
      && (r.value.miscellaneous.Some? <==> "miscellaneous" in details.fields)
      && (r.value.miscellaneous.Some? ==> r.value.miscellaneous.value == details.fields["miscellaneous"])
    ensures r.Success? && !details.JObj? ==> r.value.miscellaneous == None
  {
    match details
    case JNull => Failure("Cannot destructure 'details' as it is null.")
    case JBool(_) => Success(DaySplit(map[], None))
    case JNum(_) => Success(DaySplit(map[], None))
    case JStr(s) => Success(DaySplit(Indexed(seq(|s|, i requires 0 <= i < |s| => JStr([s[i]]))), None))
    case JArr(items) => Success(DaySplit(Indexed(items), None))
    case JObj(m) =>
      Success(DaySplit(m - {"miscellaneous"}, if "miscellaneous" in m then Some(m["miscellaneous"]) else None))
  }

  /** cleanJSON's two outputs. */
  datatype Features = Features(places: map<string, Json>, miscellaneous: map<string, Json>)

  /** A day whose `miscellaneous` entry is copied: present and truthy. */
  predicate HasMiscellaneous(details: Json)
  {
    details.JObj? && "miscellaneous" in details.fields && Truthy(details.fields["miscellaneous"])
  }

  /** The record a day contributes to the place map. */
  function PlaceOf(details: Json): Json
    requires !details.JNull?
  {
    JObj(SplitDay(details).value.rest)
  }

  /** An object day's place record is the object without its `miscellaneous` key. */
  lemma PlaceOfObject(details: Json)
    requires details.JObj?
    ensures PlaceOf(details) == JObj(details.fields - {"miscellaneous"})
  {
    var rest := SplitDay(details).value.rest;
    assert rest == details.fields - {"miscellaneous"};
  }

  /** cleanJSON, with the two output dictionaries behaving as `sem` says. */
  method CleanJsonWith(parsed: map<string, Json>, sem: ObjectSemantics) returns (r: Result<Features>)
    ensures r.Failure? <==> exists day :: day in parsed && parsed[day].JNull?
    ensures r.Success? ==> r.value.places.Keys == Storable(parsed.Keys, sem)
    ensures r.Success? ==> forall day :: day in r.value.places ==>
      && day in parsed && !parsed[day].JNull?
      && r.value.places[day] == PlaceOf(parsed[day])
    ensures r.Success? ==> forall day :: day in r.value.places ==>
      (day in r.value.miscellaneous <==> HasMiscellaneous(parsed[day]))
    ensures r.Success? ==> forall day :: day in r.value.miscellaneous ==>
      && day in r.value.places && HasMiscellaneous(parsed[day])
      && r.value.miscellaneous[day] == parsed[day].fields["miscellaneous"]
  {
    var places: map<string, Json> := map[];
    var misc: map<string, Json> := map[];
    var done: set<string> := {};
    var todo := parsed.Keys;
    while todo != {}
      invariant done + todo == parsed.Keys && done !! todo
      invariant forall day :: day in done ==> !parsed[day].JNull?
      invariant places.Keys == Storable(done, sem)
      invariant forall day :: day in places ==> day in done && places[day] == PlaceOf(parsed[day])
      invariant forall day :: day in places ==> (day in misc <==> HasMiscellaneous(parsed[day]))
      invariant forall day :: day in misc ==>
        day in places && HasMiscellaneous(parsed[day]) && misc[day] == parsed[day].fields["miscellaneous"]
      decreases todo
    {
      var day :| day in todo;
      var split := SplitDay(parsed[day]);
      if split.Failure? {
        return Failure(split.error);
      }
      places := Assign(places, day, JObj(split.value.rest), sem);
      if split.value.miscellaneous.Some? && Truthy(split.value.miscellaneous.value) {
        misc := Assign(misc, day, split.value.miscellaneous.value, sem);
      }
      done := done + {day};
      todo := todo - {day};
    }
    return Success(Features(places, misc));
  }

  /** cleanJSON as the intended dictionary split: every day keeps its place record. */
  method CleanJson(parsed: map<string, Json>) returns (r: Result<Features>)
    ensures r.Failure? <==> exists day :: day in parsed && parsed[day].JNull?
    ensures r.Success? ==> r.value.places.Keys == parsed.Keys
    ensures r.Success? ==> r.value.miscellaneous.Keys <= r.value.places.Keys
    ensures r.Success? ==> forall day :: day in parsed && parsed[day].JObj? ==>
      r.value.places[day] == JObj(parsed[day].fields - {"miscellaneous"})
    ensures r.Success? ==> forall day :: day in parsed ==>
      (day in r.value.miscellaneous <==> HasMiscellaneous(parsed[day]))
    ensures r.Success? ==> forall day :: day in r.value.miscellaneous ==>
      day in parsed && HasMiscellaneous(parsed[day])
      && r.value.miscellaneous[day] == parsed[day].fields["miscellaneous"]
  {
    r := CleanJsonWith(parsed, OwnKeys);
    forall day | day in parsed && parsed[day].JObj? {
      PlaceOfObject(parsed[day]);
    }
  }

  /** cleanJSON as written, on plain objects: a day named `__proto__` (an ordinary key in
      parsed JSON) is assigned as the prototype of both outputs and vanishes from them. */
  method CleanJsonAsWritten(parsed: map<string, Json>) returns (r: Result<Features>)
    ensures r.Failure? <==> exists day :: day in parsed && parsed[day].JNull?
    ensures r.Success? ==> r.value.places.Keys == parsed.Keys - {"__proto__"}
    ensures r.Success? ==> "__proto__" !in r.value.places && "__proto__" !in r.value.miscellaneous
  {
    r := CleanJsonWith(parsed, PlainObject);
  }
}

=== FILE: json_sanitizer.dfy ===
/** sanitizeJsonString: strips one Markdown code fence from text a language model
    returned, so that the remainder can be handed to a JSON parser. */
module JsonSanitizer {
  import opened Strings

  const Fence: string := "```"

  /** The four letters `json` in any letter case (the regular expression carries the `i` flag;
      no non-ASCII character folds to these letters in that mode). */
  predicate IsJsonTag(t: string)
  {
    |t| == 4 && (t[0] == 'j' || t[0] == 'J') && (t[1] == 's' || t[1] == 'S')
    && (t[2] == 'o' || t[2] == 'O') && (t[3] == 'n' || t[3] == 'N')
  }

  predicate StartsWithJsonTag(s: string)
  {
    |s| >= 4 && IsJsonTag(s[..4])
  }

  /** `.replace(/^```(?:json)?\s*\/i, '')`: an opening fence at the very start, the optional
      tag (taken whenever present), and all whitespace after them. */
  function StripLeadingFence(s: string): (r: string)
    ensures |r| <= |s| && r == s[|s| - |r|..]
    ensures !StartsWith(s, Fence) ==> r == s
  {
    if StartsWith(s, Fence) then
      var rest := s[|Fence|..];
      var tag := if StartsWithJsonTag(rest) then 4 else 0;
      TrimStart(rest[tag..])
    else
      s
  }

  /** `.replace(/```$/, '')`: one closing fence at the very end. */
  function StripTrailingFence(s: string): (r: string)
    ensures |r| <= |s| && r == s[..|r|]
    ensures EndsWith(s, Fence) ==> r + Fence == s
    ensures !EndsWith(s, Fence) ==> r == s
  {
    if EndsWith(s, Fence) then s[..|s| - |Fence|] else s
  }

  /** sanitizeJsonString: trim, drop one opening fence, drop one closing fence, trim. */
  function Sanitize(raw: string): (r: string)
    ensures Trimmed(r)
    ensures |r| <= |raw|
  {
    Trim(StripTrailingFence(StripLeadingFence(Trim(raw))))
  }

  /** An infix of an infix is an infix. */
  lemma InfixTransitive(a: string, b: string, c: string)
    requires IsInfix(a, b) && IsInfix(b, c)
    ensures IsInfix(a, c)
  {
    var i1, j1 :| 0 <= i1 <= j1 <= |b| && a == b[i1..j1];
    var i2, j2 :| 0 <= i2 <= j2 <= |c| && b == c[i2..j2];
    assert |b| == j2 - i2;
    assert forall k | 0 <= k < j1 - i1 :: a[k] == b[i1 + k] == c[i2 + i1 + k];
    assert a == c[i2 + i1..i2 + j1];
  }

  lemma SuffixIsInfix(r: string, s: string)
    requires |r| <= |s| && r == s[|s| - |r|..]
    ensures IsInfix(r, s)
  {
    assert r == s[|s| - |r|..|s|];
  }

  lemma PrefixIsInfix(r: string, s: string)
    requires |r| <= |s| && r == s[..|r|]
    ensures IsInfix(r, s)
  {
    assert r == s[0..|r|];
  }

  /** The sanitized text is one contiguous piece of the raw text, hence never longer. */
  lemma SanitizeIsInfix(raw: string)
    ensures IsInfix(Sanitize(raw), raw)
  {
    var t := Trim(raw);
    var l := StripLeadingFence(t);
    var e := StripTrailingFence(l);
    SuffixIsInfix(l, t);
    PrefixIsInfix(e, l);
    InfixTransitive(l, t, raw);
    InfixTransitive(e, l, raw);
    InfixTransitive(Trim(e), e, raw);
  }

  /** Text with no surrounding whitespace and no fence at either end is returned unchanged. */
  lemma SanitizeCleanFixedPoint(s: string)
    requires Trimmed(s)
    requires !StartsWith(s, Fence) && !EndsWith(s, Fence)
    ensures Sanitize(s) == s
  {
    TrimTrimmed(s);
  }

  /** Content wrapped the way a model typically returns it: optional outer whitespace, an
      opening fence with an optional `json` tag, whitespace, the content, whitespace,
      and a closing fence. */
  function Fenced(w1: string, tag: string, w2: string, c: string, w3: string, w4: string): string
  {
    w1 + Fence + tag + w2 + c + w3 + Fence + w4
  }

  /** A character that cannot be part of a `json` tag. */
  lemma NotTagLetter(s: string, k: nat)
    requires k < 4 && k < |s| && (IsWhitespace(s[k]) || s[k] == '`')
    ensures !StartsWithJsonTag(s)
  {
  }

  /** Untagged, the text behind the opening fence is not read as a tag when whitespace
      separates it from the fence or when the content does not begin with `json`. */
  lemma BodyNotTagged(w2: string, c: string, w3: string)
    requires AllWhitespace(w2) && AllWhitespace(w3)
    requires w2 != "" || !StartsWithJsonTag(c)
    ensures !StartsWithJsonTag(w2 + c + w3 + Fence)
  {
    var b := w2 + c + w3 + Fence;
    if w2 != "" {
      assert b[0] == w2[0];
      NotTagLetter(b, 0);
    } else if |c| >= 4 {
      assert b[..4] == c[..4];
    } else if w3 != "" {
      assert b[|c|] == w3[0];
      NotTagLetter(b, |c|);
    } else {
      assert b[|c|] == '`';
      NotTagLetter(b, |c|);
    }
  }

  /** The opening-fence replacement on a fence, an optional tag and a body: with a written
      tag, or with no tag and a body that does not start like one, exactly the body's leading
      whitespace goes along with the fence. */
  lemma StripLeadingUnfold(tag: string, body: string)
    requires (tag == "" && !StartsWithJsonTag(body)) || IsJsonTag(tag)
    ensures StripLeadingFence(Fence + tag + body) == TrimStart(body)
  {
    var rest := tag + body;
    assert Fence + tag + body == Fence + rest;
    assert (Fence + rest)[|Fence|..] == rest;
    if tag != "" {
      assert rest[..4] == tag;
      assert rest[4..] == body;
    } else {
      assert rest == body;
    }
  }

  /** The content, its trailing whitespace and the closing fence remain once the opening
      fence and the whitespace behind it are gone. */
  lemma TrimStartOfBody(w2: string, c: string, w3: string)
    requires AllWhitespace(w2) && AllWhitespace(w3) && Trimmed(c)
    ensures c != [] ==> TrimStart(w2 + c + w3 + Fence) == c + w3 + Fence
    ensures c == [] ==> TrimStart(w2 + c + w3 + Fence) == Fence
  {
    if c == [] {
      assert w2 + c + w3 + Fence == (w2 + w3) + Fence;
      TrimStartPadded(w2 + w3, Fence);
    } else {
      assert w2 + c + w3 + Fence == w2 + (c + w3 + Fence);
      TrimStartPadded(w2, c + w3 + Fence);
    }
  }

  /** The closing fence and the whitespace in front of it go, the content stays. */
  lemma TrailingOfBody(c: string, w3: string)
    requires AllWhitespace(w3) && Trimmed(c)
    ensures Trim(StripTrailingFence(c + w3 + Fence)) == c
  {
    assert StripTrailingFence(c + w3 + Fence) == [] + c + w3;
    TrimPadded([], c, w3);
  }

  /** Sanitize, one step at a time. */
  lemma SanitizeSteps(raw: string, t: string, l: string, e: string)
    requires Trim(raw) == t && StripLeadingFence(t) == l && StripTrailingFence(l) == e
    ensures Sanitize(raw) == Trim(e)
  {
  }

  /** The last two steps on what remains of a fenced block. */
  lemma FinishFenced(raw: string, core: string, c: string, w3: string)
    requires AllWhitespace(w3) && Trimmed(c)
    requires Trim(raw) == core
    requires c != [] ==> StripLeadingFence(core) == c + w3 + Fence
    requires c == [] ==> StripLeadingFence(core) == Fence
    ensures Sanitize(raw) == c
  {
    if c == [] {
      SanitizeSteps(raw, core, Fence, []);
      TrimTrimmed([]);
    } else {
      SanitizeSteps(raw, core, c + w3 + Fence, c + w3);
      TrailingOfBody(c, w3);
    }
  }

  /** The outer trim of a fenced block stops at the fences. */
  lemma TrimOfFenced(w1: string, core: string, w4: string, raw: string)
    requires AllWhitespace(w1) && AllWhitespace(w4)
    requires |core| > 0 && core[0] == '`' && core[|core| - 1] == '`'
    requires raw == w1 + core + w4
    ensures Trim(raw) == core
  {
    TrimPadded(w1, core, w4);
  }

  /** Sanitizing a fenced block gives back exactly the content it wraps. The one case where
      this fails is an untagged fence glued to content that itself starts with `json`:
      the regular expression then takes those letters as the tag. */
  lemma SanitizeUnwrapsFence(w1: string, tag: string, w2: string, c: string, w3: string, w4: string)
    requires AllWhitespace(w1) && AllWhitespace(w2) && AllWhitespace(w3) && AllWhitespace(w4)
    requires tag == "" || IsJsonTag(tag)
    requires Trimmed(c)
    requires tag != "" || w2 != "" || !StartsWithJsonTag(c)
    ensures Sanitize(Fenced(w1, tag, w2, c, w3, w4)) == c
  {
    var body := w2 + c + w3 + Fence;
    var core := Fence + tag + body;
    var raw := Fenced(w1, tag, w2, c, w3, w4);
    assert raw == w1 + core + w4;
    TrimOfFenced(w1, core, w4, raw);
    if tag == "" {
      BodyNotTagged(w2, c, w3);
    }
    StripLeadingUnfold(tag, body);
    TrimStartOfBody(w2, c, w3);
    FinishFenced(raw, core, c, w3);
  }

  /** `` ```json {"a":1}``` `` sanitizes to `{"a":1}`. The examples take their literals as
      parameters pinned by `requires`, which keeps the literals out of the `Sanitize` terms the
      verifier unfolds; stated on literals directly, these proofs do not finish. */
  lemma SanitizeTaggedExample(raw: string, c: string)
    requires raw == "```json {\"a\":1}```" && c == "{\"a\":1}"
    ensures Sanitize(raw) == c
  {
    assert Trimmed(c) by { assert c[0] == '{' && c[|c| - 1] == '}'; }
    assert IsJsonTag("json");
    assert AllWhitespace(" ");
    assert raw == Fenced("", "json", " ", c, "", "");
    SanitizeUnwrapsFence("", "json", " ", c, "", "");
  }

  /** The tag is matched without regard to letter case. */
  lemma SanitizeUpperCaseTagExample(raw: string, c: string)
    requires raw == "```JSON\n[1]\n```\n" && c == "[1]"
    ensures Sanitize(raw) == c
  {
    assert Trimmed(c) by { assert c[0] == '[' && c[|c| - 1] == ']'; }
    assert IsJsonTag("JSON");
    assert AllWhitespace("\n");
    assert raw == Fenced("", "JSON", "\n", c, "\n", "\n");
    SanitizeUnwrapsFence("", "JSON", "\n", c, "\n", "\n");
  }

  /** A bare fence is stripped the same way. */
  lemma SanitizeBareFenceExample(raw: string, c: string)
    requires raw == "  ```\n{}\n```" && c == "{}"
    ensures Sanitize(raw) == c
  {
    assert Trimmed(c) by { assert c[0] == '{' && c[|c| - 1] == '}'; }
    assert AllWhitespace("\n") && AllWhitespace("  ");
    assert raw == Fenced("  ", "", "\n", c, "\n", "");
    SanitizeUnwrapsFence("  ", "", "\n", c, "\n", "");
  }

  /** An opening fence with no closing one: the fence and the whitespace behind it go, and
      whatever follows stays, even when it is itself a fence. */
  lemma SanitizeLeadingFenceOnly(w: string, k: string)
    requires AllWhitespace(w) && Trimmed(k) && k != []
    requires !StartsWithJsonTag(w + k)
    requires !EndsWith(k, Fence)
    ensures Sanitize(Fence + w + k) == k
  {
    var s := Fence + w + k;
    assert Trimmed(s) by { assert s[0] == '`' && s[|s| - 1] == k[|k| - 1]; }
    TrimTrimmed(s);
    assert s == Fence + "" + (w + k);
    StripLeadingUnfold("", w + k);
    TrimStartPadded(w, k);
    SanitizeSteps(s, s, k, k);
    TrimTrimmed(k);
  }

  /** A fence glued to trimmed text is itself trimmed. */
  lemma FenceThenTrimmed(s: string, k: string)
    requires Trimmed(k) && k != []
    requires s == Fence + k
    ensures Trimmed(s)
  {
    assert s[0] == '`' && s[|s| - 1] == k[|k| - 1];
  }

  /** An untagged opening fence glued to trimmed text leaves exactly that text. */
  lemma StripLoneLeadingFence(s: string, k: string)
    requires Trimmed(k) && !StartsWithJsonTag(k)
    requires s == Fence + k
    ensures StripLeadingFence(s) == k
  {
    StripLeadingUnfold("", k);
    assert Fence + "" + k == s;
    TrimStartPadded([], k);
    assert [] + k == k;
  }

  /** The same with nothing between the fence and what follows it. */
  lemma SanitizeLoneLeadingFence(s: string, k: string)
    requires Trimmed(k) && k != []
    requires !StartsWithJsonTag(k)
    requires !EndsWith(k, Fence)
    requires s == Fence + k
    ensures Sanitize(s) == k
  {
    FenceThenTrimmed(s, k);
    StripLoneLeadingFence(s, k);
    TrimTrimmed(s);
    SanitizeSteps(s, s, k, k);
    TrimTrimmed(k);
  }

  /** Only one opening fence goes per call: a second one right behind it survives. */
  lemma OneLeadingFencePerCall(w: string, c: string)
    requires AllWhitespace(w) && Trimmed(c) && c != []
    requires !EndsWith(Fence + c, Fence)
    ensures Sanitize(Fence + w + (Fence + c)) == Fence + c
  {
    var k := Fence + c;
    assert Trimmed(k) by { assert k[0] == '`' && k[|k| - 1] == c[|c| - 1]; }
    assert (w + k)[0] == if w == [] then '`' else w[0];
    NotTagLetter(w + k, 0);
    SanitizeLeadingFenceOnly(w, k);
  }

  /** Only one closing fence goes per call: a second one right in front of it survives. */
  lemma OneTrailingFencePerCall(c: string)
    requires Trimmed(c)
    requires !StartsWith(c + Fence, Fence)
    ensures Sanitize(c + Fence + Fence) == c + Fence
  {
    var kept := c + Fence;
    var s := kept + Fence;
    assert c != [];
    assert s[..3] == kept[..3];
    assert Trimmed(kept) by { assert kept[0] == c[0]; }
    assert Trimmed(s) by { assert s[0] == c[0]; }
    TrimTrimmed(s);
    assert s[..|s| - 3] == kept;
    TrimTrimmed(kept);
  }

  /** Text that does not end with a fence once a fence is put in front of it does not end
      with one on its own either. */
  lemma ClosingFenceOfSuffix(c: string)
    requires !EndsWith(Fence + c, Fence)
    ensures !EndsWith(c, Fence)
  {
    if |c| >= 3 {
      assert (Fence + c)[|c|..] == c[|c| - 3..];
    }
  }

  /** Two calls peel a doubled opening fence one layer at a time. */
  lemma DoubledFenceNeedsTwoCalls(w: string, c: string)
    requires AllWhitespace(w) && Trimmed(c) && c != []
    requires !StartsWithJsonTag(c) && !EndsWith(Fence + c, Fence)
    ensures Sanitize(Fence + w + (Fence + c)) == Fence + c
    ensures Sanitize(Fence + c) == c
  {
    OneLeadingFencePerCall(w, c);
    ClosingFenceOfSuffix(c);
    SanitizeLoneLeadingFence(Fence + c, c);
  }

  /** The two inputs of the example below, taken apart. */
  lemma DoubledFenceParts(doubled: string, single: string, w: string, c: string)
    requires doubled == "``` ```x" && single == "```x" && w == " " && c == "x"
    ensures doubled == Fence + w + single && single == Fence + c
    ensures AllWhitespace(w) && Trimmed(c) && c != [] && !EndsWith(single, Fence)
    ensures !StartsWithJsonTag(c)
  {
  }

  /** Sanitizing is therefore not idempotent in general: `` ``` ```x `` sanitizes to
      `` ```x ``, which sanitizes to `x`. */
  lemma SanitizeNotIdempotent(doubled: string, single: string, c: string)
    requires doubled == "``` ```x" && single == "```x" && c == "x"
    ensures Sanitize(doubled) == single
    ensures Sanitize(single) == c
  {
    DoubledFenceParts(doubled, single, " ", c);
    DoubledFenceNeedsTwoCalls(" ", c);
  }
}

=== FILE: seqs.dfy ===
/** Sequence operations the services perform on arrays. */
module Seqs {

  predicate NoDuplicates<T(==)>(s: seq<T>)
  {
    forall i, j :: 0 <= i < j < |s| ==> s[i] != s[j]
  }

  /** `s.filter(e => e !== x)`: every occurrence of `x` goes, the rest keep their order. */
  function RemoveAll<T(==)>(s: seq<T>, x: T): (r: seq<T>)
    ensures x !in r
    ensures multiset(r) == multiset(s)[x := 0]
    decreases |s|
  {
    if s == [] then []
    else
      assert s == [s[0]] + s[1..];
      if s[0] == x then RemoveAll(s[1..], x) else [s[0]] + RemoveAll(s[1..], x)
  }

  /** Removal works piecewise, so the survivors keep their relative order. */
  lemma {:induction false} RemoveAllAppend<T>(a: seq<T>, b: seq<T>, x: T)
    ensures RemoveAll(a + b, x) == RemoveAll(a, x) + RemoveAll(b, x)
    decreases |a|
  {
    if a == [] {
      assert a + b == b;
    } else {
      assert (a + b)[1..] == a[1..] + b;
      RemoveAllAppend(a[1..], b, x);
    }
  }

  /** Removing an absent element changes nothing. */
  lemma {:induction false} RemoveAllAbsent<T>(s: seq<T>, x: T)
    requires x !in s
    ensures RemoveAll(s, x) == s
    decreases |s|
  {
    if s != [] {
      assert s[0] != x;
      assert x !in s[1..] by { assert forall k :: 0 <= k < |s| - 1 ==> s[1..][k] == s[k + 1]; }
      RemoveAllAbsent(s[1..], x);
      assert s == [s[0]] + s[1..];
    }
  }

  /** Appending an element that is not yet present keeps a sequence free of duplicates. */
  lemma AppendFresh<T>(s: seq<T>, x: T)
    requires NoDuplicates(s) && x !in s
    ensures NoDuplicates(s + [x])
  {
    var t := s + [x];
    forall i, j | 0 <= i < j < |t|
      ensures t[i] != t[j]
    {
      if j == |s| {
        assert t[i] == s[i];
      } else {
        assert t[i] == s[i] && t[j] == s[j];
      }
    }
  }
}

=== FILE: strings.dfy ===
/** String helpers with the JavaScript meaning of whitespace. */
module Strings {

  /** The characters String.prototype.trim removes and the regular-expression
      class `\s` matches: WhiteSpace and LineTerminator of ECMA-262 (sections 12.2
      and 12.3), which take in every space separator of Unicode category Zs. */
  predicate IsWhitespace(c: char)
  {
    var n := c as int;
    (0x09 <= n <= 0x0D) || n == 0x20 || n == 0xA0 || n == 0x1680 || (0x2000 <= n <= 0x200A)
    || n == 0x2028 || n == 0x2029 || n == 0x202F || n == 0x205F || n == 0x3000 || n == 0xFEFF
  }

  predicate AllWhitespace(s: string)
  {
    forall i :: 0 <= i < |s| ==> IsWhitespace(s[i])
  }

  /** Neither end of `s` is whitespace. */
  predicate Trimmed(s: string)
  {
    |s| == 0 || (!IsWhitespace(s[0]) && !IsWhitespace(s[|s| - 1]))
  }

  predicate StartsWith(s: string, prefix: string)
  {
    |prefix| <= |s| && s[..|prefix|] == prefix
  }

  predicate EndsWith(s: string, suffix: string)
  {
    |suffix| <= |s| && s[|s| - |suffix|..] == suffix
  }

  /** `r` occurs in `s` as one contiguous run of characters. */
  ghost predicate IsInfix(r: string, s: string)
  {
    exists i, j :: 0 <= i <= j <= |s| && r == s[i..j]
  }

  /** The first position at or after `i` that does not hold whitespace (or |s|). */
  function SkipForward(s: string, i: nat): (k: nat)
    requires i <= |s|
    ensures i <= k <= |s|
    ensures forall j :: i <= j < k ==> IsWhitespace(s[j])
    ensures k == |s| || !IsWhitespace(s[k])
    decreases |s| - i
  {
    if i < |s| && IsWhitespace(s[i]) then SkipForward(s, i + 1) else i
  }

  /** The position just after the last character before `j` that is not whitespace (or 0). */
  function SkipBackward(s: string, j: nat): (k: nat)
    requires j <= |s|
    ensures k <= j
    ensures forall i :: k <= i < j ==> IsWhitespace(s[i])
    ensures k == 0 || !IsWhitespace(s[k - 1])
    decreases j
  {
    if j > 0 && IsWhitespace(s[j - 1]) then SkipBackward(s, j - 1) else j
  }

  /** `s` without its longest all-whitespace prefix. */
  function TrimStart(s: string): (r: string)
    ensures |r| <= |s| && r == s[|s| - |r|..]
    ensures forall i :: 0 <= i < |s| - |r| ==> IsWhitespace(s[i])
    ensures r == [] || !IsWhitespace(r[0])
  {
    s[SkipForward(s, 0)..]
  }

  /** `s` without its longest all-whitespace suffix. */
  function TrimEnd(s: string): (r: string)
    ensures |r| <= |s| && r == s[..|r|]
    ensures forall i :: |r| <= i < |s| ==> IsWhitespace(s[i])
    ensures r == [] || !IsWhitespace(r[|r| - 1])
  {
    s[..SkipBackward(s, |s|)]
  }

  /** JavaScript's String.prototype.trim. */
  function Trim(s: string): (r: string)
    ensures Trimmed(r)
    ensures IsInfix(r, s)
  {
    var t := TrimStart(s);
    var r := TrimEnd(t);
    assert r == s[|s| - |t|..|s| - |t| + |r|];
    r
  }

  /** Whitespace in front of text that does not start with whitespace is exactly what TrimStart drops. */
  lemma TrimStartPadded(w: string, t: string)
    requires AllWhitespace(w)
    requires t == [] || !IsWhitespace(t[0])
    ensures TrimStart(w + t) == t
  {
    var s := w + t;
    assert forall j :: 0 <= j < |w| ==> s[j] == w[j];
    assert |w| < |s| ==> s[|w|] == t[0];
    var k := SkipForward(s, 0);
    assert k <= |w| ==> k == |w|;
    assert k == |w|;
    assert s[|w|..] == t;
  }

  /** Whitespace after text that does not end with whitespace is exactly what TrimEnd drops. */
  lemma TrimEndPadded(t: string, w: string)
    requires AllWhitespace(w)
    requires t == [] || !IsWhitespace(t[|t| - 1])
    ensures TrimEnd(t + w) == t
  {
    var s := t + w;
    assert forall j :: |t| <= j < |s| ==> s[j] == w[j - |t|];
    assert |t| > 0 ==> s[|t| - 1] == t[|t| - 1];
    var k := SkipBackward(s, |s|);
    assert k >= |t| ==> k == |t|;
    assert k == |t|;
    assert s[..|t|] == t;
  }

  /** Trimming removes exactly the whitespace padding around text whose ends are not whitespace. */
  lemma TrimPadded(w1: string, c: string, w2: string)
    requires AllWhitespace(w1) && AllWhitespace(w2) && Trimmed(c)
    ensures Trim(w1 + c + w2) == c
  {
    if c == [] {
      assert w1 + c + w2 == (w1 + w2) + [];
      TrimStartPadded(w1 + w2, []);
    } else {
      assert w1 + c + w2 == w1 + (c + w2);
      TrimStartPadded(w1, c + w2);
      TrimEndPadded(c, w2);
    }
  }

  /** An already trimmed string is its own trim. */
  lemma TrimTrimmed(s: string)
    requires Trimmed(s)
    ensures Trim(s) == s
  {
    TrimPadded([], s, []);
    assert [] + s + [] == s;
  }

  /** Every string is its trim with whitespace on either side. */
  lemma TrimParts(s: string) returns (w1: string, w2: string)
    ensures AllWhitespace(w1) && AllWhitespace(w2)
    ensures s == w1 + Trim(s) + w2
  {
    var t := TrimStart(s);
    var r := TrimEnd(t);
    w1 := s[..|s| - |t|];
    w2 := t[|r|..];
    assert s == w1 + t;
    assert t == r + w2;
  }

  function LowerChar(c: char): char
  {
    if 'A' <= c <= 'Z' then (c as int + 32) as char else c
  }

  /** String.prototype.toLowerCase restricted to ASCII letters. */
  function LowerAscii(s: string): (r: string)
    ensures |r| == |s|
    ensures forall i :: 0 <= i < |s| ==> r[i] == LowerChar(s[i])
  {
    seq(|s|, i requires 0 <= i < |s| => LowerChar(s[i]))
  }
}

=== FILE: trip_controller.dfy ===
/** The trip request handlers as validation cascades: each takes the fields of one request
    and either rejects it with a status and message or names the service call it makes and
    the status it answers with once that call returns. The existence checks that test an
    un-awaited Promise can never fire and so do not appear; a service that throws answers 500. */
module TripController {
  import opened Common
  import opened Strings
  import opened TripModel
  import TripServices

  datatype Decision<A> = Reject(status: int, error: string) | Call(args: A, onSuccess: int)

  /** The status a decision answers with, given whether the service call threw. */
  function Status<A>(d: Decision<A>, serviceThrew: bool): int
  {
    match d
    case Reject(status, _) => status
    case Call(_, onSuccess) => if serviceThrew then 500 else onSuccess
  }

  /** A string field passes `!field` (and `field === ''`): present and non-empty. */
  predicate Given(field: Option<string>)
  {
    field.Some? && field.value != ""
  }

  // ---------------------------------------------------------------------------------------
  // createTrip

  datatype CreateTripArgs = CreateTripArgs(userId: string, tripData: map<string, Json>, itineraries: seq<ItineraryInput>)

  function CreateTrip(userId: Option<string>, tripData: Option<map<string, Json>>, itineraries: Option<seq<ItineraryInput>>): (d: Decision<CreateTripArgs>)
    ensures d.Call? <==> Given(userId) && tripData.Some? && tripData.value != map[] && itineraries.Some? && itineraries.value != []
    ensures d.Call? ==> d == Call(CreateTripArgs(userId.value, tripData.value, itineraries.value), 201)
    ensures !Given(userId) ==> d == Reject(400, "userId is required")
    ensures Given(userId) && (tripData.None? || tripData.value == map[]) ==> d == Reject(400, "tripData is required")
    ensures Given(userId) && tripData.Some? && tripData.value != map[] && (itineraries.None? || itineraries.value == []) ==>
      d == Reject(400, "itineraries must be a non-empty array")
    ensures d.Reject? ==> d.status == 400
  {
    if !Given(userId) then Reject(400, "userId is required")
    else if tripData.None? || |tripData.value.Keys| == 0 then Reject(400, "tripData is required")
    else if itineraries.None? || |itineraries.value| == 0 then Reject(400, "itineraries must be a non-empty array")
    else Call(CreateTripArgs(userId.value, tripData.value, itineraries.value), 201)
  }

  // ---------------------------------------------------------------------------------------
  // getAllTrip

  /** getAllTrip: the only handler that awaits its existence check. */
  function GetAllTrip(userId: Option<string>, userExists: bool): (d: Decision<string>)
    ensures d.Call? <==> userId.Some? && Trim(userId.value) != "" && userExists
    ensures d.Call? ==> d == Call(userId.value, 200)
    ensures userId.None? || Trim(userId.value) == "" ==> d == Reject(400, "userId is required")
    ensures userId.Some? && Trim(userId.value) != "" && !userExists ==> d == Reject(404, "userId does not exist")
  {
    if userId.None? || userId.value == "" || Trim(userId.value) == "" then Reject(400, "userId is required")
    else if !userExists then Reject(404, "userId does not exist")
    else Call(userId.value, 200)
  }

  // ---------------------------------------------------------------------------------------
  // addItem / deleteItem

  datatype ItemArgs = ItemArgs(userId: string, tripId: string, item: string)

  function AddItem(userId: Option<string>, tripId: Option<string>, item: Option<string>): (d: Decision<ItemArgs>)
    ensures d.Call? <==> Given(userId) && Given(tripId) && Given(item)
    ensures d.Reject? ==> d.status == 400
    ensures d.Call? ==> d == Call(ItemArgs(userId.value, tripId.value, item.value), 200)
    ensures !Given(userId) ==> d == Reject(400, "userId is required")
    ensures Given(userId) && !Given(tripId) ==> d == Reject(400, "tripId is required")
    ensures Given(userId) && Given(tripId) && !Given(item) ==> d == Reject(400, "item is required")
  {
    if !Given(userId) then Reject(400, "userId is required")
    else if !Given(tripId) then Reject(400, "tripId is required")
    else if !Given(item) then Reject(400, "item is required")
    else Call(ItemArgs(userId.value, tripId.value, item.value), 200)
  }

  function DeleteItem(userId: Option<string>, tripId: Option<string>, item: Option<string>): (d: Decision<ItemArgs>)
    ensures d.Call? <==> Given(userId) && Given(tripId) && Given(item)
    ensures d.Reject? ==> d.status == 400
    ensures d.Call? ==> d == Call(ItemArgs(userId.value, tripId.value, item.value), 204)
    ensures d.Reject? ==> d == Reject(400, "Missing required fields: userId, tripId, or item")
  {
    if !Given(userId) || !Given(tripId) || !Given(item) then
      Reject(400, "Missing required fields: userId, tripId, or item")
    else
      Call(ItemArgs(userId.value, tripId.value, item.value), 204)
  }

  // ---------------------------------------------------------------------------------------
  // deleteEvent

  /** The activity of a deleteEvent request; a timestamp of 0 reads as falsy. */
  datatype ActivityRequest = ActivityRequest(
    from: Option<int>, to: Option<int>, title: Option<string>, details: Option<string>, location: Option<GeoPoint>)

  /** The activity passes `!activity.from || !activity.to || !activity.title || !activity.details`. */
  predicate WellFormed(a: ActivityRequest)
  {
    a.from.Some? && a.from.value != 0 && a.to.Some? && a.to.value != 0 && Given(a.title) && Given(a.details)
  }

  datatype DeleteEventArgs = DeleteEventArgs(userId: string, tripId: string, itineraryId: string, target: Activity)

  function DeleteEvent(userId: Option<string>, tripId: Option<string>, itineraryId: Option<string>, activity: Option<ActivityRequest>): (d: Decision<DeleteEventArgs>)
    ensures d.Reject? ==> d.status == 400
    ensures d.Call? <==> Given(userId) && Given(tripId) && Given(itineraryId) && activity.Some? && WellFormed(activity.value)
    ensures d.Call? ==> var a := activity.value;
      d == Call(DeleteEventArgs(userId.value, tripId.value, itineraryId.value,
                                Activity(a.from.value, a.to.value, a.title.value, a.details.value, a.location)), 204)
    ensures !Given(userId) ==> d == Reject(400, "userId is required")
    ensures Given(userId) && !Given(tripId) ==> d == Reject(400, "tripId is required")
    ensures Given(userId) && Given(tripId) && !Given(itineraryId) ==> d == Reject(400, "itineraryId is required")
    ensures Given(userId) && Given(tripId) && Given(itineraryId) && (activity.None? || !WellFormed(activity.value)) ==>
      d == Reject(400, "activity is malformed")
  {
    if !Given(userId) then Reject(400, "userId is required")
    else if !Given(tripId) then Reject(400, "tripId is required")
    else if !Given(itineraryId) then Reject(400, "itineraryId is required")
    else if activity.None? || !WellFormed(activity.value) then Reject(400, "activity is malformed")
    else
      var a := activity.value;
      Call(DeleteEventArgs(userId.value, tripId.value, itineraryId.value,
                           Activity(a.from.value, a.to.value, a.title.value, a.details.value, a.location)), 204)
  }

  // ---------------------------------------------------------------------------------------
  // addVariableExpenses / setBudget

  /** The `item` of an addVariableExpenses request: its name may be any JSON value. */
  datatype ExpenseItem = ExpenseItem(name: Option<Json>, value: Option<Number>)

  /** A name that passes: a string that is not blank once trimmed. */
  predicate ValidName(name: Option<Json>)
  {
    name.Some? && name.value.JStr? && Trim(name.value.s) != ""
  }

  /** A value that passes: present, a number and positive. */
  predicate PositiveAmount(value: Option<Number>)
  {
    value.Some? && value.value.Num? && value.value.value > 0.0
  }

  /** addVariableExpenses passes the ids through unchecked. */
  datatype ExpenseArgs = ExpenseArgs(userId: Option<string>, tripId: Option<string>, name: string, value: Number)

  function AddVariableExpenses(userId: Option<string>, tripId: Option<string>, item: Option<ExpenseItem>): (d: Decision<ExpenseArgs>)
    ensures d.Reject? ==> d.status == 400
    ensures d.Call? <==> item.Some? && ValidName(item.value.name) && PositiveAmount(item.value.value)
    ensures d.Call? ==> d == Call(ExpenseArgs(userId, tripId, item.value.name.value.s, item.value.value.value), 200)
    ensures item.None? || !ValidName(item.value.name) ==>
      d == Reject(400, "Item name is required and must be a non-empty string")
    ensures item.Some? && ValidName(item.value.name) && !PositiveAmount(item.value.value) ==>
      d == Reject(400, "Item value is required and must be a positive number")
  {
    if item.None? || item.value.name.None? || !Truthy(item.value.name.value) || !item.value.name.value.JStr?
       || Trim(item.value.name.value.s) == "" then
      Reject(400, "Item name is required and must be a non-empty string")
    else if item.value.value.None? || item.value.value.value.NaN? || item.value.value.value.value <= 0.0 then
      Reject(400, "Item value is required and must be a positive number")
    else
      Call(ExpenseArgs(userId, tripId, item.value.name.value.s, item.value.value.value), 200)
  }

  datatype BudgetArgs = BudgetArgs(userId: string, tripId: string, amount: Number)

  function SetBudget(userId: Option<string>, tripId: Option<string>, amount: Option<Number>): (d: Decision<BudgetArgs>)
    ensures d.Reject? ==> d.status == 400
    ensures d.Call? <==> Given(userId) && Given(tripId) && PositiveAmount(amount)
    ensures d.Call? ==> d == Call(BudgetArgs(userId.value, tripId.value, amount.value), 200)
    ensures !Given(userId) || !Given(tripId) || amount.None? ==>
      d == Reject(400, "Missing required fields: userId, tripId, or amount")
    ensures Given(userId) && Given(tripId) && amount == Some(NaN) ==> d == Reject(400, "Amount must be a valid number")
    ensures Given(userId) && Given(tripId) && amount.Some? && amount.value.Num? && amount.value.value <= 0.0 ==>
      d == Reject(400, "Amount must be a positive number")
  {
    if !Given(userId) || !Given(tripId) || amount.None? then
      Reject(400, "Missing required fields: userId, tripId, or amount")
    else if amount.value.NaN? then Reject(400, "Amount must be a valid number")
    else if amount.value.value <= 0.0 then Reject(400, "Amount must be a positive number")
    else Call(BudgetArgs(userId.value, tripId.value, amount.value), 200)
  }

  // ---------------------------------------------------------------------------------------
  // Properties across handlers

  /** A blank-but-non-empty user id passes addItem's check but not getAllTrip's, which trims. */
  lemma BlankUserIdTreatedDifferently(userId: string, tripId: string, item: string)
    requires userId != "" && AllWhitespace(userId) && tripId != "" && item != ""
    ensures AddItem(Some(userId), Some(tripId), Some(item)).Call?
    ensures GetAllTrip(Some(userId), true) == Reject(400, "userId is required")
  {
    TrimPadded(userId, "", "");
    assert userId + "" + "" == userId;
  }

  /** Whatever addVariableExpenses lets through reaches the service as a truthy amount, so
      repeating an accepted request leaves the trip as the first one left it. */
  lemma AcceptedExpenseRepeatsHarmlessly(userId: Option<string>, tripId: Option<string>, item: Option<ExpenseItem>, t: TripDoc)
    requires AddVariableExpenses(userId, tripId, item).Call?
    ensures var args := AddVariableExpenses(userId, tripId, item).args;
      var once := TripServices.AddVariableExpense(Some(t), args.name, args.value).value;
      TripServices.AddVariableExpense(Some(once), args.name, args.value) == Success(once)
  {
    var args := AddVariableExpenses(userId, tripId, item).args;
    TripServices.AddVariableExpenseIdempotent(t, args.name, args.value, args.value);
  }

  /** getAllTrip answers 404 exactly for a non-blank user id the existence check does not find. */
  lemma GetAllTripNotFoundIff(userId: Option<string>, userExists: bool, serviceThrew: bool)
    ensures Status(GetAllTrip(userId, userExists), serviceThrew) == 404 <==>
      userId.Some? && Trim(userId.value) != "" && !userExists
    ensures Status(GetAllTrip(userId, userExists), serviceThrew) in {400, 404, 200, 500}
  {
  }

  // Apart from getAllTrip, no handler answers 404: each answers 400, its own success status,
  // or 500 when the service throws.

  lemma CreateTripNeverNotFound(userId: Option<string>, tripData: Option<map<string, Json>>,
                                itineraries: Option<seq<ItineraryInput>>, serviceThrew: bool)
    ensures Status(CreateTrip(userId, tripData, itineraries), serviceThrew) in {400, 201, 500}
  {
  }

  lemma ItemHandlersNeverNotFound(userId: Option<string>, tripId: Option<string>, item: Option<string>, serviceThrew: bool)
    ensures Status(AddItem(userId, tripId, item), serviceThrew) in {400, 200, 500}
    ensures Status(DeleteItem(userId, tripId, item), serviceThrew) in {400, 204, 500}
  {
  }

  lemma DeleteEventNeverNotFound(userId: Option<string>, tripId: Option<string>, itineraryId: Option<string>,
                                 activity: Option<ActivityRequest>, serviceThrew: bool)
    ensures Status(DeleteEvent(userId, tripId, itineraryId, activity), serviceThrew) in {400, 204, 500}
  {
  }

  lemma ExpenseHandlersNeverNotFound(userId: Option<string>, tripId: Option<string>, expense: Option<ExpenseItem>,
                                     amount: Option<Number>, serviceThrew: bool)
    ensures Status(AddVariableExpenses(userId, tripId, expense), serviceThrew) in {400, 200, 500}
    ensures Status(SetBudget(userId, tripId, amount), serviceThrew) in {400, 200, 500}
  {
  }

  /** setBudget only ever stores a positive amount. */
  lemma AcceptedBudgetIsPositive(userId: Option<string>, tripId: Option<string>, amount: Option<Number>, doc: Option<TripDoc>)
    requires SetBudget(userId, tripId, amount).Call?
    ensures var stored := TripServices.SetBudget(doc, SetBudget(userId, tripId, amount).args.amount).expensesUsed.value;
      stored.Num? && stored.value > 0.0
  {
  }
}

=== FILE: trip_model.dfy ===
/** The stored shapes of a trip and of one day of its itinerary. Every field of a stored
    trip is optional, because the trip document is written from whatever the client sent.
    Timestamps are whole milliseconds; coordinates are compared only for equality. */
module TripModel {
  import opened Common

  datatype GeoPoint = GeoPoint(latitude: real, longitude: real)

  /** One planned event of a day. */
  datatype Activity = Activity(from: int, to: int, title: string, details: string, location: Option<GeoPoint>)

  /** A stored itinerary document: one day of the trip. */
  datatype ItineraryDoc = ItineraryDoc(date: Option<int>, activities: Option<seq<Activity>>)

  /** A stored trip document. */
  datatype TripDoc = TripDoc(
    from: Option<int>,
    to: Option<int>,
    expensesUsed: Option<Number>,
    expensesLimit: Option<Number>,
    setExpenses: Option<map<string, Number>>,
    variableExpenses: Option<map<string, Number>>,
    items: Option<seq<string>>)

  /** The document a merge-write creates when nothing was stored yet. */
  const EmptyTrip := TripDoc(None, None, None, None, None, None, None)

  /** A trip as getAllTrip hands it out: the document id and the stored fields, with the
      two expense dictionaries and the checklist always present. */
  datatype TripView = TripView(
    id: string,
    from: Option<int>,
    to: Option<int>,
    expensesUsed: Option<Number>,
    expensesLimit: Option<Number>,
    setExpenses: map<string, Number>,
    variableExpenses: map<string, Number>,
    items: seq<string>)

  /** One day as a client submits it to createTrip. Its activities have the stored shape, and
      any of them may lack a location; the activity list itself may be missing. */
  datatype ItineraryInput = ItineraryInput(date: int, activities: Option<seq<Activity>>)
}

=== FILE: trip_services.dfy ===
/** The trip services as state transitions on one stored document. The document snapshot a
    service reads is a parameter (None when the document does not exist) and the document
    it leaves behind is the result; a service that throws yields a Failure and writes nothing. */
module TripServices {
  import opened Common
  import opened Seqs
  import opened TripModel

  /** What a property read through `data!` throws when the document does not exist. */
  function ReadOfUndefined(property: string): string
  {
    "Cannot read properties of undefined (reading '" + property + "')"
  }

  // ---------------------------------------------------------------------------------------
  // addItems / deleteItem: the checklist

  /** The checklist as both services read it: a missing list is empty. */
  function StoredItems(t: TripDoc): seq<string>
  {
    t.items.GetOr([])
  }

  /** addItems: append the item unless the list already holds it, then merge the list back. */
  function AddItems(doc: Option<TripDoc>, item: string): (r: Result<TripDoc>)
    ensures r.Failure? <==> doc.None?
    ensures r.Success? ==> item in StoredItems(r.value) && r.value.items.Some?
    ensures r.Success? && item in StoredItems(doc.value) ==> StoredItems(r.value) == StoredItems(doc.value)
    ensures r.Success? && item !in StoredItems(doc.value) ==> StoredItems(r.value) == StoredItems(doc.value) + [item]
    ensures r.Success? ==> r.value.(items := doc.value.items) == doc.value
  {
    match doc
    case None => Failure(ReadOfUndefined("items"))
    case Some(t) =>
      var list := StoredItems(t);
      Success(t.(items := Some(if item in list then list else list + [item])))
  }

  /** As a set, the checklist gains exactly the item. */
  lemma AddItemsIsSetInsert(t: TripDoc, item: string)
    ensures var s := StoredItems(AddItems(Some(t), item).value);
      forall x :: x in s <==> x in StoredItems(t) || x == item
  {
  }

  /** addItems never introduces a duplicate. */
  lemma AddItemsKeepsNoDuplicates(t: TripDoc, item: string)
    requires NoDuplicates(StoredItems(t))
    ensures NoDuplicates(StoredItems(AddItems(Some(t), item).value))
  {
    if item !in StoredItems(t) {
      AppendFresh(StoredItems(t), item);
    }
  }

  /** Adding the same item twice is adding it once. */
  lemma AddItemsIdempotent(t: TripDoc, item: string)
    ensures AddItems(Some(AddItems(Some(t), item).value), item) == AddItems(Some(t), item)
  {
  }

  /** deleteItem: when the item is listed, drop every occurrence and merge the list back;
      otherwise write nothing. */
  function DeleteItem(doc: Option<TripDoc>, item: string): (r: Result<TripDoc>)
    ensures r.Failure? <==> doc.None?
    ensures r.Success? && item !in StoredItems(doc.value) ==> r.value == doc.value
    ensures r.Success? ==> item !in StoredItems(r.value)
    ensures r.Success? ==> multiset(StoredItems(r.value)) == multiset(StoredItems(doc.value))[item := 0]
    ensures r.Success? && item in StoredItems(doc.value) ==> StoredItems(r.value) == RemoveAll(StoredItems(doc.value), item)
    ensures r.Success? ==> r.value.(items := doc.value.items) == doc.value
  {
    match doc
    case None => Failure(ReadOfUndefined("items"))
    case Some(t) =>
      var list := StoredItems(t);
      if item in list then Success(t.(items := Some(RemoveAll(list, item)))) else Success(t)
  }

  /** The items that survive deleteItem keep their relative order: deleting from a list
      split in two deletes from each half. */
  lemma DeleteItemKeepsOrder(t: TripDoc, item: string, front: seq<string>, back: seq<string>)
    requires item in StoredItems(t) && StoredItems(t) == front + back
    ensures StoredItems(DeleteItem(Some(t), item).value) == RemoveAll(front, item) + RemoveAll(back, item)
  {
    RemoveAllAppend(front, back, item);
  }

  /** Deleting an item that addItems just appended gives back the original list. */
  lemma DeleteUndoesAddItems(t: TripDoc, item: string)
    requires item !in StoredItems(t)
    ensures DeleteItem(AddItems(Some(t), item).ToOption(), item) == Success(t.(items := Some(StoredItems(t))))
  {
    var list := StoredItems(t);
    RemoveAllAppend(list, [item], item);
    RemoveAllAbsent(list, item);
    assert RemoveAll([item], item) == [];
    assert list + [] == list;
  }

  // ---------------------------------------------------------------------------------------
  // incrementExpenses / setBudget: the spent amount

  /** incrementExpenses: `expensesUsed += amount`; a missing total reads as undefined and
      turns into NaN. */
  function IncrementExpenses(doc: Option<TripDoc>, amount: Number): (r: Result<TripDoc>)
    ensures r.Failure? <==> doc.None?
    ensures r.Success? ==> r.value.expensesUsed.Some?
    ensures r.Success? ==> (r.value.expensesUsed.value.Num? <==>
      doc.value.expensesUsed.Some? && doc.value.expensesUsed.value.Num? && amount.Num?)
    ensures r.Success? && r.value.expensesUsed.value.Num? ==>
      r.value.expensesUsed.value.value == doc.value.expensesUsed.value.value + amount.value
    ensures r.Success? ==> r.value.(expensesUsed := doc.value.expensesUsed) == doc.value
  {
    match doc
    case None => Failure(ReadOfUndefined("expensesUsed"))
    case Some(t) => Success(t.(expensesUsed := Some(Plus(t.expensesUsed, amount))))
  }

  /** Two increments add up to one increment by the sum. */
  lemma IncrementTwice(t: TripDoc, a: real, b: real)
    ensures IncrementExpenses(IncrementExpenses(Some(t), Num(a)).ToOption(), Num(b))
         == IncrementExpenses(Some(t), Num(a + b))
  {
  }

  /** Once the total is NaN, no increment brings it back. */
  lemma IncrementKeepsNaN(t: TripDoc, amount: Number)
    requires t.expensesUsed == Some(NaN) || t.expensesUsed == None
    ensures IncrementExpenses(Some(t), amount).value.expensesUsed == Some(NaN)
  {
  }

  /** setBudget: a blind merge-write of `expensesUsed`, which creates the document when
      needed; the limit and every other field stay as they were. */
  function SetBudget(doc: Option<TripDoc>, amount: Number): (r: TripDoc)
    ensures r.expensesUsed == Some(amount)
    ensures doc.Some? ==> r.(expensesUsed := doc.value.expensesUsed) == doc.value
    ensures doc.None? ==> r.(expensesUsed := None) == EmptyTrip
  {
    doc.GetOr(EmptyTrip).(expensesUsed := Some(amount))
  }

  /** The last setBudget wins. */
  lemma SetBudgetLastWriteWins(doc: Option<TripDoc>, a: Number, b: Number)
    ensures SetBudget(Some(SetBudget(doc, a)), b) == SetBudget(doc, b)
  {
  }

  /** An increment after setBudget counts from the amount set. */
  lemma IncrementAfterSetBudget(doc: Option<TripDoc>, a: real, b: real)
    ensures IncrementExpenses(Some(SetBudget(doc, Num(a))), Num(b)) == Success(SetBudget(doc, Num(a + b)))
  {
  }

  // ---------------------------------------------------------------------------------------
  // addVariableExpenses

  /** The variable expenses as read: `data?.variableExpenses || {}`. */
  function StoredVariableExpenses(t: TripDoc): map<string, Number>
  {
    t.variableExpenses.GetOr(map[])
  }

  /** addVariableExpenses with the expense dictionary behaving as `sem` says: when the entry
      for `name` reads falsy (missing, 0 or NaN) it is set to `value` and the total is
      incremented by `value`; the dictionary is merged back in every case. */
  function AddVariableExpenseWith(doc: Option<TripDoc>, name: string, value: Number, sem: ObjectSemantics): (r: Result<TripDoc>)
    ensures r.Failure? <==> doc.None?
    ensures r.Failure? ==> r.error == "Trip not found"
    ensures r.Success? ==> r.value.variableExpenses.Some?
    ensures r.Success? ==> r.value.(expensesUsed := doc.value.expensesUsed, variableExpenses := doc.value.variableExpenses) == doc.value
  {
    match doc
    case None => Failure("Trip not found")
    case Some(t) =>
      var expenses := StoredVariableExpenses(t);
      if !ReadsTruthy(expenses, name, NumberTruthy, sem) then
        Success(t.(expensesUsed := Some(Plus(t.expensesUsed, value)),
                   variableExpenses := Some(Assign(expenses, name, value, sem))))
      else
        Success(t.(variableExpenses := Some(expenses)))
  }

  /** Whether addVariableExpenses records the expense: no entry for the name, or a falsy one. */
  predicate Records(t: TripDoc, name: string)
  {
    var expenses := StoredVariableExpenses(t);
    name !in expenses || !NumberTruthy(expenses[name])
  }

  /** addVariableExpenses on a dictionary that sees only its own keys. */
  function AddVariableExpense(doc: Option<TripDoc>, name: string, value: Number): (r: Result<TripDoc>)
    ensures r.Failure? <==> doc.None?
    ensures r.Failure? ==> r.error == "Trip not found"
    ensures r.Success? && Records(doc.value, name) ==>
      && r.value.variableExpenses == Some(StoredVariableExpenses(doc.value)[name := value])
      && r.value.expensesUsed == Some(Plus(doc.value.expensesUsed, value))
    ensures r.Success? && !Records(doc.value, name) ==>
      && r.value.variableExpenses == Some(StoredVariableExpenses(doc.value))
      && r.value.expensesUsed == doc.value.expensesUsed
    ensures r.Success? ==> r.value.(expensesUsed := doc.value.expensesUsed, variableExpenses := doc.value.variableExpenses) == doc.value
  {
    AddVariableExpenseWith(doc, name, value, OwnKeys)
  }

  /** A second call for a name already charged with a non-zero amount changes nothing,
      whatever amount it carries. */
  lemma AddVariableExpenseIdempotent(t: TripDoc, name: string, value: Number, again: Number)
    requires NumberTruthy(value)
    ensures var once := AddVariableExpense(Some(t), name, value).value;
      AddVariableExpense(Some(once), name, again) == Success(once)
  {
  }

  /** addVariableExpenses as written, on a plain object: reading `variableExpenses[name]`
      also sees what every object inherits, so a name such as `constructor` reads truthy. */
  function AddVariableExpenseAsWritten(doc: Option<TripDoc>, name: string, value: Number): (r: Result<TripDoc>)
    ensures r.Failure? <==> doc.None?
    ensures r.Success? && name in ObjectPrototypeNames && name !in StoredVariableExpenses(doc.value) ==>
      && r.value.variableExpenses == Some(StoredVariableExpenses(doc.value))
      && r.value.expensesUsed == doc.value.expensesUsed
    ensures name !in ObjectPrototypeNames ==> r == AddVariableExpense(doc, name, value)
  {
    AddVariableExpenseWith(doc, name, value, PlainObject)
  }

  /** The first expense named `constructor` is neither stored nor charged as written, while
      the intended behaviour records it. */
  lemma InheritedNameExpenseLost(t: TripDoc, name: string, value: real)
    requires name == "constructor" && name !in StoredVariableExpenses(t) && value > 0.0
    ensures AddVariableExpenseAsWritten(Some(t), name, Num(value)).value == t.(variableExpenses := Some(StoredVariableExpenses(t)))
    ensures name in AddVariableExpense(Some(t), name, Num(value)).value.variableExpenses.value
  {
  }

  // ---------------------------------------------------------------------------------------
  // deleteEvent

  /** deleteEvent's location test: both missing, or both present with equal coordinates. */
  predicate SameLocation(a: Option<GeoPoint>, b: Option<GeoPoint>)
  {
    (a.None? && b.None?)
    || (a.Some? && b.Some? && a.value.latitude == b.value.latitude && a.value.longitude == b.value.longitude)
  }

  /** deleteEvent's match: same details, title, start, end and location. */
  predicate SameEvent(a: Activity, target: Activity)
  {
    a.details == target.details && a.title == target.title && a.from == target.from
    && a.to == target.to && SameLocation(a.location, target.location)
  }

  /** The field-by-field test is exactly equality of activities. */
  lemma SameEventIsEquality(a: Activity, target: Activity)
    ensures SameEvent(a, target) <==> a == target
  {
  }

  /** `activities.filter(a => !same(a, target))`. */
  function KeepOthers(acts: seq<Activity>, target: Activity): seq<Activity>
    decreases |acts|
  {
    if acts == [] then []
    else if SameEvent(acts[0], target) then KeepOthers(acts[1..], target)
    else [acts[0]] + KeepOthers(acts[1..], target)
  }

  /** The filter deleteEvent writes removes every copy of the target and nothing else. */
  lemma {:induction false} KeepOthersIsRemoveAll(acts: seq<Activity>, target: Activity)
    ensures KeepOthers(acts, target) == RemoveAll(acts, target)
    decreases |acts|
  {
    if acts != [] {
      SameEventIsEquality(acts[0], target);
      KeepOthersIsRemoveAll(acts[1..], target);
    }
  }

  /** deleteEvent: read the day's activities and write back those that differ from the target. */
  function DeleteEvent(doc: Option<ItineraryDoc>, target: Activity): (r: Result<ItineraryDoc>)
    ensures r.Failure? <==> doc.None? || doc.value.activities.None?
    ensures r.Success? ==> r.value.date == doc.value.date && r.value.activities.Some?
    ensures r.Success? ==> r.value.activities.value == RemoveAll(doc.value.activities.value, target)
  {
    match doc
    case None => Failure(ReadOfUndefined("activities"))
    case Some(d) =>
      match d.activities
      case None => Failure(ReadOfUndefined("filter"))
      case Some(acts) =>
        KeepOthersIsRemoveAll(acts, target);
        Success(d.(activities := Some(KeepOthers(acts, target))))
  }

  /** Deleting an event twice is deleting it once. */
  lemma DeleteEventIdempotent(d: ItineraryDoc, target: Activity)
    requires d.activities.Some?
    ensures DeleteEvent(DeleteEvent(Some(d), target).ToOption(), target) == DeleteEvent(Some(d), target)
  {
    var once := DeleteEvent(Some(d), target).value;
    RemoveAllAbsent(once.activities.value, target);
  }

  // ---------------------------------------------------------------------------------------
  // getAllTrip

  /** One stored trip as getAllTrip returns it: missing dictionaries and checklist default
      to empty, every other field is copied as stored. */
  function ViewOf(id: string, t: TripDoc): (v: TripView)
    ensures v.id == id && v.from == t.from && v.to == t.to
    ensures v.expensesUsed == t.expensesUsed && v.expensesLimit == t.expensesLimit
    ensures t.setExpenses.None? ==> v.setExpenses == map[]
    ensures t.variableExpenses.None? ==> v.variableExpenses == map[]
    ensures t.items.None? ==> v.items == []
    ensures t.setExpenses.Some? ==> v.setExpenses == t.setExpenses.value
    ensures t.variableExpenses.Some? ==> v.variableExpenses == t.variableExpenses.value
    ensures t.items.Some? ==> v.items == t.items.value
  {
    TripView(id, t.from, t.to, t.expensesUsed, t.expensesLimit,
             t.setExpenses.GetOr(map[]), t.variableExpenses.GetOr(map[]), t.items.GetOr([]))
  }

  /** The document a view describes, with the defaulted fields written out. */
  function DocOf(v: TripView): TripDoc
  {
    TripDoc(v.from, v.to, v.expensesUsed, v.expensesLimit, Some(v.setExpenses), Some(v.variableExpenses), Some(v.items))
  }

  /** The view loses nothing: a document with its dictionaries and checklist present comes
      back from its view, and a view comes back from its document. */
  lemma ViewRoundTrip(id: string, t: TripDoc, v: TripView)
    requires t.setExpenses.Some? && t.variableExpenses.Some? && t.items.Some?
    ensures DocOf(ViewOf(id, t)) == t
    ensures ViewOf(v.id, DocOf(v)) == v
  {
  }

  /** getAllTrip: every stored trip of the user, in the order the query returns them. */
  function GetAllTrip(docs: seq<(string, TripDoc)>): (r: seq<TripView>)
    ensures |r| == |docs|
    ensures forall i :: 0 <= i < |docs| ==> r[i] == ViewOf(docs[i].0, docs[i].1)
  {
    seq(|docs|, i requires 0 <= i < |docs| => ViewOf(docs[i].0, docs[i].1))
  }

  // ---------------------------------------------------------------------------------------
  // createTrip

  /** What createTrip leaves behind: the trip document (written first, in every case), the
      itinerary documents of the committed batch, and the new trip's id or the error. */
  datatype CreateWrites = CreateWrites(trip: TripDoc, days: seq<ItineraryDoc>, result: Result<string>)

  predicate Located(a: Activity)
  {
    a.location.Some?
  }

  /** A submitted day that createTrip can store: it has an activity list and each activity a location. */
  predicate StorableDay(day: ItineraryInput)
  {
    day.activities.Some? && forall k :: 0 <= k < |day.activities.value| ==> Located(day.activities.value[k])
  }

  /** The itinerary document stored for a submitted day. */
  function StoredDay(day: ItineraryInput): ItineraryDoc
  {
    ItineraryDoc(Some(day.date), day.activities)
  }

  /** The activity mapping of one day: building the GeoPoint reads the location's latitude,
      which throws when the location is missing; otherwise every field is copied as sent. */
  function MapActivities(acts: seq<Activity>): (r: Result<seq<Activity>>)
    ensures r.Success? <==> forall k :: 0 <= k < |acts| ==> Located(acts[k])
    ensures r.Failure? ==> r.error == ReadOfUndefined("latitude")
    ensures r.Success? ==> r.value == acts
    decreases |acts|
  {
    if acts == [] then Success([])
    else
      var a := acts[0];
      match a.location
      case None => Failure(ReadOfUndefined("latitude"))
      case Some(p) =>
        var rest :- MapActivities(acts[1..]);
        Success([Activity(a.from, a.to, a.title, a.details, Some(p))] + rest)
  }

  /** The batch of itinerary documents, built day by day; the first failure aborts it. */
  function MapItineraries(days: seq<ItineraryInput>): (r: Result<seq<ItineraryDoc>>)
    ensures r.Success? <==> forall i :: 0 <= i < |days| ==> StorableDay(days[i])
    ensures r.Failure? ==> r.error == ReadOfUndefined("map") || r.error == ReadOfUndefined("latitude")
    ensures r.Success? ==> |r.value| == |days| && forall i :: 0 <= i < |days| ==> r.value[i] == StoredDay(days[i])
    decreases |days|
  {
    if days == [] then Success([])
    else
      var day := days[0];
      match day.activities
      case None => Failure(ReadOfUndefined("map"))
      case Some(acts) =>
        var stored :- MapActivities(acts);
        var rest :- MapItineraries(days[1..]);
        Success([ItineraryDoc(Some(day.date), Some(stored))] + rest)
  }

  /** createTrip: write the trip, then commit one itinerary document per submitted day. */
  function CreateTrip(tripData: TripDoc, days: seq<ItineraryInput>, newId: string): (r: CreateWrites)
    ensures r.trip == tripData
    ensures r.result.Success? <==> forall i :: 0 <= i < |days| ==> StorableDay(days[i])
    ensures r.result.Success? ==> r.result.value == newId && |r.days| == |days|
    ensures r.result.Success? ==> MapItineraries(days).Success? && r.days == MapItineraries(days).value
    ensures r.result.Success? ==> forall i :: 0 <= i < |days| ==> r.days[i] == StoredDay(days[i])
    ensures r.result.Failure? ==> r.days == []
  {
    match MapItineraries(days)
    case Success(docs) => CreateWrites(tripData, docs, Success(newId))
    case Failure(e) => CreateWrites(tripData, [], Failure(e))
  }
}
